=== FILE: README.md ===
# Promo bot epoch monitor and promo redemption, in Dafny

This project models the core of a Discord bot that pays users for sharing
promo codes. It covers these parts:

- **Reward table** (`Domain`). Five epochs. Each epoch has a reward per
  redemption and a usage limit. Epoch 5 is the last.
- **Epoch monitor** (`MonitorService`). It holds the current epoch in
  memory with an `updated` flag. `Use` hands out one reward and rolls over
  to the next epoch when the limit reaches zero. `DeUse` gives one use back.
  `Save` persists the state. `Sync` loads the latest epoch. `Get` reads
  an epoch through the repository.
- **Epoch persistence** (`MonitorRepository`). A map from epoch id to
  record. `Get` reads by id or returns the latest epoch. `Update` is a
  partial-field upsert.
- **User store** (`UserRepository`). A map from Discord id to user.
  `CreateUser`, `UpdatePromo` (a user's own code can be set once) and
  `UsePromo` (a transaction that redeems a code and credits both users)
  either succeed or leave the map unchanged.
- **Promo service** (`PromoService`). Validates a code, then delegates to
  the user store. Redeems codes with the configured award.
- **Error mapping** (`BotErrors`). The two handlers that turn an error
  into what a user sees.
- **Command gates** (`UserCommands`). The DM and review-role gate of
  `update-balance`. The author selection and account-age gate of
  `register`.
- **Redemption** (`Redemption`). This is an **assumption**: the source
  that chains `Use`, `UsePromo` and `DeUse` is not part of this model.
  The module builds that chain from the verified pieces only, so it can
  state what they guarantee together.

The model uses these conventions:

- Every operation is a pure function. On failure it returns an error and
  the state it was given.
- Driver and network failures are an explicit `fault: Option<Error>`
  argument.
- The clock is an argument. `Time` is `ZeroTime` (Go's zero `time.Time`)
  or `Instant(nanos)`. The monitor collection stores times as BSON dates,
  which keep whole milliseconds: `StoredTime` rounds down on every write.
- Library calls are arguments: the promo pattern `rxPromo` and the
  snowflake decoder `snowflake`.
- A Go error is a `DomainError(code, message)`, a `Foreign(text)` error,
  or a `Wrapped(context, inner)` chain. `AsDomain` plays the part of
  `errors.As`.

Behaviour of the code that is easy to miss:

- `Get` of the monitor service refuses every id below 5, including the
  id 0 of a current-epoch query. Ids of 5 and above go to the
  repository.
- `Sync` on an empty store fails with NotFound "Epoch not found.".
- The message for a user who is missing or has already redeemed is
  "User not found.".
- Balances can go down: `update-balance` takes a signed delta, and the
  award is any integer.

## Model

| member | source | states |
|---|---|---|
| Domain.AsDomain | internal/bot/response/error.go:40-43 | `errors.As` finds the domain error directly and finds none in a foreign error |
| Domain.AsDomainSeesThroughWrapping | internal/bot/response/error.go:43 | a domain error is found through any number of wrappers, with its code and message intact |
| Domain.AsDomainOfWrappedForeign | internal/bot/plugin/error.go:44 | a foreign error stays non-domain however it is wrapped |
| Domain.StoredTime | internal/repository/monitor.go:89-94 | a time written to the store keeps only its whole milliseconds, rounded down, and the zero time stays zero |
| Domain.StoredTimeIdempotent | internal/repository/monitor.go:89-94 | writing a stored time again changes nothing, and a whole-millisecond time is stored exactly |
| Domain.QuotaAbove | internal/domain/monitor.go:26-32 | the quota of the epochs after k is never negative, is zero from the last epoch on, and is positive before it |
| Domain.EpochTableShape | internal/domain/monitor.go:23-32 | MaxMonitorEpoch is 5, the table keys are exactly 1..5, and each entry's id equals its key |
| Domain.EpochTableSupportsRollover | internal/domain/monitor.go:26-32 | every usage limit is positive, so a new epoch minus one use is at least 0, and every epoch before the last has a successor in the table |
| Domain.EpochRewardsDecrease | internal/domain/monitor.go:27-31 | rewards strictly decrease with the id, from 1000 down to 600 |
| Domain.TotalQuota | internal/domain/monitor.go:27-31 | the usage limits add up to 25000 |
| MonitorRepository.MaxExists | internal/repository/monitor.go:57-59 | every non-empty set of epoch ids has a greatest element, so "sort by _id descending, take one" is defined |
| MonitorRepository.LastId | internal/repository/monitor.go:57-59 | the latest epoch id is stored and at least every stored id |
| MonitorRepository.Get | internal/repository/monitor.go:49-78 | `last` returns the record with the greatest id and ignores `id`; otherwise it returns exactly record `id`; a missing record or an empty store gives NotFound "Epoch not found."; a driver error is returned as is |
| MonitorRepository.Update | internal/repository/monitor.go:81-105 | usage limit and update time are always written; reward and start time only when non-zero, otherwise the stored (or zero) values stay; times are stored to the millisecond; the record is created if absent; every other id is unchanged |
| MonitorRepository.UpdateThenGet | internal/repository/monitor.go:49-105 | reading an epoch right after upserting it gives the written id and usage limit, the update time cut to milliseconds, the non-zero reward, and the non-zero start time cut to milliseconds |
| MonitorRepository.PartialUpdateKeepsFields | internal/repository/monitor.go:84-94 | a write carrying zero reward and zero start time keeps the stored reward and start time, and sets limit and (millisecond) update time |
| MonitorRepository.UpdateThenLast | internal/repository/monitor.go:97-102 | after an upsert the latest epoch exists and its id is at least the written id |
| MonitorService.ValidCanUse | internal/service/monitor.go:117-134 | a synced monitor on epoch 1..5 never reaches the nil dereferences of `Use` |
| MonitorService.Use | internal/service/monitor.go:112-149 | a non-zero limit drops by exactly one, id and reward stay, the reward is returned and the state is marked updated; limit 0 at epoch 5 fails with NotFound "Rewards are over!" and changes nothing; limit 0 earlier moves to id+1 with the table reward and table limit minus one, returns the new reward, and emits a save of the old epoch with only id, limit 0 and update time; the id never decreases; epoch 1..5 with a non-negative limit is preserved |
| MonitorService.DeUse | internal/service/monitor.go:152-157 | the usage limit rises by exactly one and nothing else changes, not id, reward, times or `updated` |
| MonitorService.UseThenDeUse | internal/service/monitor.go:145-157 | within one epoch, `DeUse` after `Use` restores the monitor exactly, now marked updated |
| MonitorService.Save | internal/service/monitor.go:75-96 | an explicit monitor goes through the repository upsert as given and the service is untouched; with neither `updated` nor `skip` nothing happens; otherwise the current state, stamped with the new update time, goes through the repository upsert (zero reward or start time keep the stored ones), and `updated` is cleared only when the write succeeds (on error both the flag and the store stay) |
| MonitorService.RolloverSaveKeepsEpochRecord | internal/service/monitor.go:123-132 | the save a rollover emits sets the stored old epoch to limit 0 with the new update time (to the millisecond), keeps its stored reward and start time, and touches nothing else |
| MonitorService.Sync | internal/service/monitor.go:99-109 | loads the stored epoch with the greatest id and keeps `updated`; on a repository error (including an empty store) the service is unchanged |
| MonitorService.SaveThenSync | internal/service/monitor.go:75-109 | saving an updated monitor with a non-zero reward and start time whose epoch is the latest one, then syncing, gives back the same monitor stamped with the save time, its times cut to milliseconds, and no longer marked updated |
| MonitorService.Get | internal/service/monitor.go:63-72 | every id below 5 is refused with InvalidArgument before the repository is read, even when the current epoch is asked for; ids of 5 and above get exactly the repository's answer: the stored record, the latest stored record for a current-epoch query, or its error |
| MonitorService.GetRejectsEarlyEpochs | internal/service/monitor.go:63-69 | epochs 1 to 4 and the current-epoch query with id 0 are always refused, even when the record exists |
| MonitorService.GetIntended | internal/service/monitor.go:63-72 | the corrected guard refuses exactly the ids above 5; every other id gets exactly the repository's answer: the stored record, the latest stored record for a current-epoch query, or its error |
| MonitorService.GetVersusIntended | internal/service/monitor.go:63-72 | below 5 the code as written refuses what the corrected guard passes to the repository, above 5 the reverse; without a driver fault the two answer alike exactly at id 5 |
| MonitorService.GetIntendedServesTable | internal/service/monitor.go:63-72 | the corrected guard serves every stored table epoch and the current-epoch query |
| MonitorService.UseLedger | internal/service/monitor.go:117-148 | a use succeeds exactly when the remaining quota (rest of this epoch plus all later epochs) is positive, and it consumes exactly one unit; a failure changes nothing |
| MonitorService.Run | internal/service/monitor.go:112-149 | any number of consecutive uses keeps the monitor on epoch 1..5 with a non-negative limit |
| MonitorService.RunLedger | internal/service/monitor.go:117-148 | n consecutive uses pay out min(n, remaining quota) rewards and charge the quota for exactly those |
| MonitorService.RunRemaining | internal/service/monitor.go:117-148 | after n uses the remaining quota is the original quota less n, floored at zero |
| MonitorService.RunSuccesses | internal/service/monitor.go:117-148 | every successful use in a run is paid for by exactly one unit of the remaining quota |
| MonitorService.FreshMonitorPays25000 | internal/service/monitor.go:117-148 | from a freshly activated epoch 1, exactly min(n, 25000) of n uses succeed |
| MonitorService.DrainTier | internal/service/monitor.go:145-148 | the first k ≤ L uses of an epoch with limit L all pay that epoch's reward and leave it at limit L-k |
| MonitorService.RolloverAfterLimit | internal/service/monitor.go:117-148 | in epoch k < 5 with limit L, L uses pay reward k and use L+1 pays reward k+1, leaving epoch k+1 at its table limit minus one |
| MonitorService.TwoLeftThenRollover | internal/service/monitor.go:117-148 | epoch 1 with two uses left pays 1000, 1000, then 900 from epoch 2, which is left at 1999 |
| MonitorService.ExhaustedStaysExhausted | internal/service/monitor.go:117-121 | once epoch 5 is at limit 0, every further use fails with "Rewards are over!" and the state never changes |
| UserRepository.CreateUser | internal/repository/user.go:49-56 | inserts the user exactly when the Discord id and the promo code are both free; otherwise AlreadyExists "User already exists." with the store unchanged; no other user changes |
| UserRepository.UpdatePromo | internal/repository/user.go:59-74 | sets the code exactly when the user exists, has no code yet and the code is free; a missing user or a set code gives NotFound, a taken code gives AlreadyExists, both with the store unchanged |
| UserRepository.FindOwner | internal/repository/user.go:82-89 | the owner found really owns the code, and none is found exactly when nobody owns it |
| UserRepository.FindOwnerUnique | internal/repository/user.go:82 | with unique promo codes the owner found is the only owner |
| UserRepository.UsePromo | internal/repository/user.go:77-129 | an unknown code gives NotFound "Promo code not found.", one's own code gives InvalidArgument, a missing or already-redeemed user gives NotFound "User not found.", and every error leaves the store unchanged; success records the code on the redeemer and adds the award to both the redeemer and the owner, with every other user unchanged |
| UserRepository.UsePromoTotalBalance | internal/repository/user.go:97-113 | a successful redemption raises the sum of all balances by exactly twice the award |
| UserRepository.RedeemAtMostOnce | internal/repository/user.go:97-104 | after a successful redemption, every later redemption by the same user fails, whatever the code |
| UserRepository.UsePromoKeepsUsed | internal/repository/user.go:97-100 | a redeemed code, once recorded, never changes and the user is never removed |
| UserRepository.UpdatePromoKeepsPromo | internal/repository/user.go:60-62 | a user's own code, once set, never changes |
| UserRepository.CreateUserKeepsPromosUnique | internal/repository/user.go:49-56 | inserting a user never produces two owners of one promo code |
| UserRepository.UpdatePromoKeepsPromosUnique | internal/repository/user.go:59-74 | setting a user's code never produces two owners of one code |
| UserRepository.UsePromoKeepsPromosUnique | internal/repository/user.go:77-129 | redeeming never produces two owners of one code |
| PromoService.Update | internal/service/promo.go:46-58 | a code the pattern rejects gives InvalidArgument "The promo code is invalid." independently of the store and of any driver fault; a valid code gets exactly the repository's outcome and error |
| PromoService.Use | internal/service/promo.go:61-67 | redeems with the configured award and returns the repository outcome unchanged; on success the total balance rises by twice the award |
| BotErrors.ResponseMessage | internal/bot/response/error.go:39-57 | NotFound, AlreadyExists and InvalidArgument show the domain message; Internal, any unlisted code and non-domain errors show "Internal bot error" |
| BotErrors.PluginError | internal/bot/plugin/error.go:40-58 | for NotFound, AlreadyExists and InvalidArgument the original error is returned, wrappers and all; for anything else a new generic "Internal bot error" |
| BotErrors.WrappedUserFacingError | internal/bot/plugin/error.go:43-51 | for a wrapped user-facing domain error the plugin handler returns the whole wrapped error and the response handler shows the inner message |
| BotErrors.HiddenErrors | internal/bot/response/error.go:51-56 | Internal, unlisted-code and foreign errors are hidden however they are wrapped: the response shows "Internal bot error" and the plugin handler returns a new generic error |
| BotErrors.HandlersAgree | internal/bot/plugin/error.go:40-58 | the plugin handler passes an error through exactly when the response handler shows its domain message |
| UserCommands.HasRole | internal/bot/command/user/update.go:155-163 | true exactly when some element equals the target, so false on an empty list |
| UserCommands.UpdateBalance | internal/bot/command/user/update.go:73-125 | a DM is refused before roles are checked; a member without the review role is refused; in both cases no update is issued; otherwise the update carries the target and the signed amount |
| UserCommands.ReviewerDebitsRegardlessOfError | internal/bot/command/user/update.go:104-125 | a negative amount is passed through, and the confirmation is sent even when the update failed |
| UserCommands.Author | internal/bot/command/user/register.go:53-60 | the author is the DM user when present, otherwise the member's user |
| UserCommands.TooNew | internal/bot/command/user/register.go:69 | the age check compares whole seconds: too new exactly when creation time plus minimum age reaches the second after the one holding now; so not after now is never too new, and a second or more after now always is |
| UserCommands.SameSecondIsAccepted | internal/bot/command/user/register.go:69 | whole Unix seconds are compared, so reaching the age later within the current second is accepted |
| UserCommands.Register | internal/bot/command/user/register.go:52-102 | a snowflake decode error ends silently; a too-new account gets "Your account is well new!" and no user is created; otherwise a user is created for the author's id and the reply is the create error's message or "You have successfully registered!" |
| Redemption.Redeem | internal/bot/command/user/use.go:70-82 | ASSUMED chain: if the reservation fails, nothing changes; otherwise the chain succeeds exactly when `UsePromo` at the reserved reward succeeds, its error is passed on, and on success the store is `UsePromo`'s (the reward paid twice into the total); on failure the store is untouched and the reservation is given back to the current epoch |
| Redemption.FailedRedeemRestoresQuota | internal/service/monitor.go:145-157 | ASSUMED chain: a failed redemption without a rollover leaves the monitor as it was, apart from `updated` |
| Redemption.FailedRedeemAfterRollover | internal/service/monitor.go:123-157 | ASSUMED chain: after a rollover, the use given back goes to the new epoch (full table limit), and the old epoch's save still says 0 |

## Findings

| source | as written | input that shows it | evidently intended | confidence | as-written member | corrected member |
|---|---|---|---|---|---|---|
| internal/service/monitor.go:64 | `id < MaxMonitorEpoch` refuses every id below 5 with "There can be no more than 5 epochs." | `Get(store, 3, false)` with epoch 3 stored, or the current-epoch query `Get(store, 0, true)` | refuse only ids above 5, as the message says | high, not executed | MonitorService.GetRejectsEarlyEpochs | MonitorService.GetIntended |

The model keeps `MonitorService.Get` as written. `GetIntended` exists to
state the corrected guard.

## Left out

- `sync.Mutex` and the `go func` save are concurrency. Each `Use` and `DeUse`
  is one atomic transition, and the rollover save is the `pending` value
  of `UseOutcome`. Running the pending write is `Save` with an explicit
  monitor. `Save` reading the monitor without the lock is not modelled.
- MonitorService.Use: the goroutine stamps the pending save with its own
  `time.Now()`. The model uses the same `now` as the rollover.
- `time.Now()` is a parameter everywhere. Go's zero time is `ZeroTime`.
- MongoDB is abstract maps: sessions, `WithTransaction`, `FindOneAndUpdate`
  and `IsDuplicate`. The unique indexes are not part of this model. Unique
  Discord ids come from the map keys. Unique promo codes are the
  `UniquePromos` predicate. `FindOne({promo})` is any owner (`FindOwner`).
- UserRepository.UsePromo: a driver fault takes precedence over the logical
  checks and aborts the whole transaction. The model does not say at which
  step of the transaction the fault happens.
- UserRepository.CreateUser: a duplicate on either unique key gives
  AlreadyExists. Which indexes exist is an assumption.
- The `ObjectID` `_id` of user documents is not modelled. The owner is
  credited under their Discord id.
- `register` creates `domain.User{Id: author.ID}`, which does not fit the
  `User` struct of internal/domain/user.go. The model keys the new user by
  the author's Discord id.
- Integers are unbounded. Overflow of the usage limit (a Go `int`) or of
  balances (changed by MongoDB `$inc`) is not modelled.
- Nil dereferences are preconditions, not outcomes: `Use` before `Sync`,
  `DeUse` before `Sync`, `Save` with `skip` (or an updated flag) before
  `Sync`, a missing `Epochs[id+1]`, and an interaction with neither user
  nor member.
- `domain.RxPromo` and `discordgo.SnowflakeTimestamp` are library code.
  They are the `rxPromo` and `snowflake` parameters.
- Discord I/O is not modelled: interaction responses, embeds, log-channel
  messages, the `epoch`, `use`, `create` and `user` handlers, and the
  placeholder handlers of the promo plugin. Replies are values (`Reply`,
  `RegisterOutcome`).
- Command registration and dispatch, bot and service wiring,
  configuration loading, `cmd/bot/main.go` and the database connection
  are not modelled.
- `UserService` is pure forwarding to `CreateUser`. The balance service
  that `update-balance` calls is not part of this model. The model only
  records the call it receives (`BalanceUpdate`).
- Redemption.Redeem: the chain of `Use`, `UsePromo` and `DeUse` is an
  assumption built from the modelled pieces. It is not the source's
  composition, which is not part of this model.

=== FILE: bot_errors.dfy ===
/**
 The two error handlers of the bot layer: the response handler turns an
 error into the text shown to the user, the plugin handler turns it into the
 error whose text is shown. Both show a domain error's own message for the
 codes NotFound, AlreadyExists and InvalidArgument and hide everything else
 behind "Internal bot error".
 */
module BotErrors {
  import opened Domain

  const InternalBotError: string := "Internal bot error"

  /** The codes whose message may be shown to users. */
  predicate UserFacing(c: Code)
  {
    c == NotFound || c == AlreadyExists || c == InvalidArgument
  }

  /** The response handler (`internal/bot/response`): the message to reply with. */
  function ResponseMessage(e: Error): (msg: string)
    ensures AsDomain(e).Some? && UserFacing(AsDomain(e).value.0) ==> msg == AsDomain(e).value.1
    ensures AsDomain(e).None? || !UserFacing(AsDomain(e).value.0) ==> msg == InternalBotError
  {
    match AsDomain(e)
    case Some((code, message)) =>
      (match code
       case NotFound => message
       case AlreadyExists => message
       case InvalidArgument => message
       case Internal => InternalBotError
       case OtherCode(_) => InternalBotError)
    case None => InternalBotError
  }

  /** The plugin handler (`internal/bot/plugin`): the original error, or a new generic one. */
  function PluginError(e: Error): (r: Error)
    ensures AsDomain(e).Some? && UserFacing(AsDomain(e).value.0) ==> r == e
    ensures AsDomain(e).None? || !UserFacing(AsDomain(e).value.0) ==> r == Foreign(InternalBotError)
  {
    match AsDomain(e)
    case Some((code, _)) =>
      (match code
       case NotFound => e
       case AlreadyExists => e
       case InvalidArgument => e
       case Internal => Foreign(InternalBotError)
       case OtherCode(_) => Foreign(InternalBotError))
    case None => Foreign(InternalBotError)
  }

  /**
   The plugin handler keeps the whole wrapped chain, not the domain error
   found inside it, while the response handler shows that inner message.
   */
  lemma WrappedUserFacingError(c: Code, m: string, contexts: seq<string>)
    requires UserFacing(c)
    ensures PluginError(WrapAll(DomainError(c, m), contexts)) == WrapAll(DomainError(c, m), contexts)
    ensures ResponseMessage(WrapAll(DomainError(c, m), contexts)) == m
  {
    AsDomainSeesThroughWrapping(c, m, contexts);
  }

  /** Internal errors and errors from outside the domain are never shown, however they are wrapped. */
  lemma HiddenErrors(m: string, t: string, n: int, contexts: seq<string>)
    ensures ResponseMessage(WrapAll(DomainError(Internal, m), contexts)) == InternalBotError
    ensures ResponseMessage(WrapAll(DomainError(OtherCode(n), m), contexts)) == InternalBotError
    ensures ResponseMessage(WrapAll(Foreign(t), contexts)) == InternalBotError
    ensures PluginError(WrapAll(DomainError(Internal, m), contexts)) == Foreign(InternalBotError)
    ensures PluginError(WrapAll(DomainError(OtherCode(n), m), contexts)) == Foreign(InternalBotError)
    ensures PluginError(WrapAll(Foreign(t), contexts)) == Foreign(InternalBotError)
  {
    AsDomainSeesThroughWrapping(Internal, m, contexts);
    AsDomainSeesThroughWrapping(OtherCode(n), m, contexts);
    AsDomainOfWrappedForeign(t, contexts);
  }

  /** The two handlers agree: the plugin passes an error through exactly when the response shows its domain message. */
  lemma HandlersAgree(e: Error)
    ensures PluginError(e) != Foreign(InternalBotError) ==> PluginError(e) == e && AsDomain(e).Some? && ResponseMessage(e) == AsDomain(e).value.1
    ensures ResponseMessage(e) != InternalBotError ==> PluginError(e) == e
  {
  }
}

=== FILE: domain.dfy ===
/**
 Shared domain types of the promo bot: the error value every layer returns,
 the epoch record (`Monitor`) and the static reward table that drives the
 epoch monitor.
 */
module Domain {

  /** Conventional optional value, used for Go nil pointers and omitempty fields. */
  datatype Option<+T> = None | Some(value: T)

  /** A Go `(value, error)` pair where exactly one side is meaningful. */
  datatype Result<+T> = Ok(value: T) | Err(error: Error)

  /** The domain error codes. Codes the handlers do not list are kept as `OtherCode`. */
  datatype Code = NotFound | AlreadyExists | InvalidArgument | Internal | OtherCode(value: int)

  /**
   An error value as the Go code sees it: a `*domain.Error`, an error from
   elsewhere (driver, library, `fmt.Errorf` without `%w`), or an error that
   wraps another one (`fmt.Errorf("...: %w", inner)`).
   */
  datatype Error =
    | DomainError(code: Code, message: string)
    | Foreign(text: string)
    | Wrapped(context: string, inner: Error)

  /**
   `errors.As(err, &e)` for `e *domain.Error`: the first domain error found
   while unwrapping the chain, if any.
   */
  function AsDomain(e: Error): (r: Option<(Code, string)>)
    ensures e.DomainError? ==> r == Some((e.code, e.message))
    ensures e.Foreign? ==> r.None?
  {
    match e
    case DomainError(c, m) => Some((c, m))
    case Foreign(_) => None
    case Wrapped(_, inner) => AsDomain(inner)
  }

  /** Wraps `e` once per context string, innermost first. */
  function WrapAll(e: Error, contexts: seq<string>): (w: Error)
  {
    if |contexts| == 0 then e else Wrapped(contexts[|contexts| - 1], WrapAll(e, contexts[..|contexts| - 1]))
  }

  /** Unwrapping sees through any number of wrappers around a domain error. */
  lemma {:induction false} AsDomainSeesThroughWrapping(c: Code, m: string, contexts: seq<string>)
    ensures AsDomain(WrapAll(DomainError(c, m), contexts)) == Some((c, m))
    decreases |contexts|
  {
    if |contexts| > 0 {
      AsDomainSeesThroughWrapping(c, m, contexts[..|contexts| - 1]);
    }
  }

  /** A foreign error stays foreign however often it is wrapped. */
  lemma {:induction false} AsDomainOfWrappedForeign(t: string, contexts: seq<string>)
    ensures AsDomain(WrapAll(Foreign(t), contexts)) == None
    decreases |contexts|
  {
    if |contexts| > 0 {
      AsDomainOfWrappedForeign(t, contexts[..|contexts| - 1]);
    }
  }

  /** A map that is not empty holds some key. */
  lemma NonEmptyHasKey<K, V>(m: map<K, V>)
    ensures m != map[] ==> exists k :: k in m
  {
    if forall k :: k !in m {
      assert m == map[];
    }
  }

  /** Some key of a non-empty map. */
  ghost function AnyKey<K, V>(m: map<K, V>): (k: K)
    requires m != map[]
    ensures k in m
  {
    NonEmptyHasKey(m);
    var k :| k in m; k
  }

  /** A Go `time.Time`: the zero value, or an instant in nanoseconds since the Unix epoch. */
  datatype Time = ZeroTime | Instant(nanos: int)

  const NanosPerMilli: int := 1_000_000

  /**
   The time a BSON date keeps: whole milliseconds since the Unix epoch,
   rounded down, as the driver encodes it. The zero time reads back as the
   zero time.
   */
  function StoredTime(t: Time): (r: Time)
    ensures r.ZeroTime? <==> t.ZeroTime?
    ensures r.Instant? ==> r.nanos <= t.nanos < r.nanos + NanosPerMilli && r.nanos % NanosPerMilli == 0
  {
    match t
    case ZeroTime => ZeroTime
    case Instant(n) => Instant(n - n % NanosPerMilli)
  }

  /** Storing a stored time again changes nothing; a whole-millisecond instant is stored exactly. */
  lemma StoredTimeIdempotent(t: Time)
    ensures StoredTime(StoredTime(t)) == StoredTime(t)
    ensures t.Instant? && t.nanos % NanosPerMilli == 0 ==> StoredTime(t) == t
  {
  }

  /** One epoch of the promo monitor (`domain.Monitor`). */
  datatype Monitor = Monitor(id: int, reward: int, usageLimit: int, startedIn: Time, updatedAt: Time)

  /** The last epoch; there is no successor tier. */
  const MaxMonitorEpoch: int := 5

  /** The reward table: per epoch id, the reward per redemption and the usage limit. */
  const Epochs: map<int, Monitor> := map[
    1 := Monitor(1, 1000, 500, ZeroTime, ZeroTime),
    2 := Monitor(2, 900, 2000, ZeroTime, ZeroTime),
    3 := Monitor(3, 800, 2500, ZeroTime, ZeroTime),
    4 := Monitor(4, 700, 10000, ZeroTime, ZeroTime),
    5 := Monitor(5, 600, 10000, ZeroTime, ZeroTime)
  ]

  /** Sum of the usage limits of all table epochs with an id above `k`. */
  function QuotaAbove(k: int): (q: int)
    ensures q >= 0
    ensures k >= MaxMonitorEpoch ==> q == 0
    ensures 1 <= k < MaxMonitorEpoch ==> q > 0
    decreases MaxMonitorEpoch - k
  {
    if k >= MaxMonitorEpoch then 0
    else if k + 1 in Epochs then Epochs[k + 1].usageLimit + QuotaAbove(k + 1)
    else QuotaAbove(k + 1)
  }

  /** The table is keyed by exactly the ids 1 to MaxMonitorEpoch and each entry carries its own key as id. */
  lemma EpochTableShape()
    ensures MaxMonitorEpoch == 5
    ensures Epochs.Keys == {1, 2, 3, 4, 5}
    ensures forall k :: k in Epochs ==> Epochs[k].id == k
  {
  }

  /** Every tier has a positive quota and the rollover lookup `Epochs[k + 1]` exists for k < MaxMonitorEpoch. */
  lemma EpochTableSupportsRollover()
    ensures forall k :: k in Epochs ==> Epochs[k].usageLimit > 0 && Epochs[k].usageLimit - 1 >= 0
    ensures forall k :: k in Epochs && k < MaxMonitorEpoch ==> k + 1 in Epochs
  {
  }

  /** Rewards strictly decrease with the epoch id. */
  lemma EpochRewardsDecrease()
    ensures forall j, k :: j in Epochs && k in Epochs && j < k ==> Epochs[j].reward > Epochs[k].reward
    ensures Epochs[1].reward == 1000 && Epochs[5].reward == 600
  {
  }

  /** The whole table pays out 25000 redemptions. */
  lemma TotalQuota()
    ensures Epochs[1].usageLimit + QuotaAbove(1) == 25000
  {
    assert QuotaAbove(4) == 10000;
    assert QuotaAbove(3) == 20000;
    assert QuotaAbove(2) == 22500;
  }
}

=== FILE: monitor_repository.dfy ===
/**
 The `monitor` collection: one document per epoch, keyed by `_id` (the epoch
 id). `Get` reads one epoch or the latest one; `Update` is a partial-field
 upsert. Driver failures are the explicit `fault` parameter and leave the
 collection as it was.
 */
module MonitorRepository {
  import opened Domain

  /** The collection, keyed by `_id`. Fields never written read back as Go zero values. */
  type Store = map<int, Monitor>

  datatype UpdateOutcome = UpdateOutcome(store: Store, err: Option<Error>)

  const EpochNotFound: Error := DomainError(NotFound, "Epoch not found.")

  predicate IsMaxOf(x: int, s: set<int>)
  {
    x in s && forall y :: y in s ==> y <= x
  }

  /** Every finite set of ids that holds `w` has a greatest element. */
  lemma {:induction false} MaxExists(s: set<int>, w: int)
    requires w in s
    ensures exists x :: IsMaxOf(x, s)
    decreases |s|
  {
    if !IsMaxOf(w, s) {
      var y :| y in s && y > w;
      var rest := s - {w};
      MaxExists(rest, y);
      var x :| IsMaxOf(x, rest);
      assert x >= y;
      assert forall z :: z in s ==> z == w || z in rest;
      assert IsMaxOf(x, s);
    }
  }

  /** The greatest id in the collection (the `sort {_id: -1}` of `FindOne`). */
  function LastId(store: Store): (k: int)
    requires store != map[]
    ensures k in store
    ensures forall j :: j in store ==> j <= k
  {
    MaxExists(store.Keys, AnyKey(store));
    var x :| IsMaxOf(x, store.Keys);
    x
  }

  /** Decoding a document fills `Id` from `_id`. */
  function Decode(store: Store, k: int): (m: Monitor)
    requires k in store
  {
    store[k].(id := k)
  }

  /**
   Reads the latest epoch when `last` is set (the id is then ignored),
   otherwise the epoch with exactly `id`; no matching document gives
   NotFound "Epoch not found.".
   */
  function Get(store: Store, id: int, last: bool, fault: Option<Error>): (r: Result<Monitor>)
    ensures fault.Some? ==> r == Err(fault.value)
    ensures fault.None? && last && store == map[] ==> r == Err(EpochNotFound)
    ensures fault.None? && last && store != map[] ==>
      r.Ok? && r.value.id in store && r.value == Decode(store, r.value.id) &&
      forall j :: j in store ==> j <= r.value.id
    ensures fault.None? && !last ==>
      (id in store ==> r == Ok(Decode(store, id))) && (id !in store ==> r == Err(EpochNotFound))
  {
    if fault.Some? then Err(fault.value)
    else if last then
      if store == map[] then Err(EpochNotFound) else Ok(Decode(store, LastId(store)))
    else if id in store then Ok(Decode(store, id))
    else Err(EpochNotFound)
  }

  /** The document `Update` leaves behind for `m.id`, given what was stored before (if anything). */
  function Merge(previous: Option<Monitor>, m: Monitor): (merged: Monitor)
  {
    var base := if previous.Some? then previous.value else Monitor(m.id, 0, 0, ZeroTime, ZeroTime);
    Monitor(
      m.id,
      if m.reward != 0 then m.reward else base.reward,
      m.usageLimit,
      if m.startedIn != ZeroTime then StoredTime(m.startedIn) else base.startedIn,
      StoredTime(m.updatedAt))
  }

  /**
   Upserts epoch `m.id`: `usageLimit` and `updatedAt` are always written,
   `reward` and `startedIn` only when they are not zero, and every other
   epoch is left alone.
   */
  function Update(store: Store, m: Monitor, fault: Option<Error>): (o: UpdateOutcome)
    ensures fault.Some? ==> o == UpdateOutcome(store, fault)
    ensures fault.None? ==> o.err.None?
    ensures fault.None? ==> o.store.Keys == store.Keys + {m.id}
    ensures fault.None? ==> forall j :: j in store && j != m.id ==> o.store[j] == store[j]
    ensures fault.None? ==>
      && o.store[m.id].usageLimit == m.usageLimit
      && o.store[m.id].updatedAt == StoredTime(m.updatedAt)
      && o.store[m.id].reward == (if m.reward != 0 then m.reward else if m.id in store then store[m.id].reward else 0)
      && o.store[m.id].startedIn == (if m.startedIn != ZeroTime then StoredTime(m.startedIn) else if m.id in store then store[m.id].startedIn else ZeroTime)
  {
    if fault.Some? then UpdateOutcome(store, fault)
    else
      var previous := if m.id in store then Some(store[m.id]) else None;
      UpdateOutcome(store[m.id := Merge(previous, m)], None)
  }

  /** Reading back an epoch after a successful upsert gives the written usage limit and update time. */
  lemma UpdateThenGet(store: Store, m: Monitor)
    ensures var w := Update(store, m, None);
      var r := Get(w.store, m.id, false, None);
      && r.Ok?
      && r.value.id == m.id
      && r.value.usageLimit == m.usageLimit
      && r.value.updatedAt == StoredTime(m.updatedAt)
      && (m.reward != 0 ==> r.value.reward == m.reward)
      && (m.startedIn != ZeroTime ==> r.value.startedIn == StoredTime(m.startedIn))
  {
  }

  /** A write that carries neither reward nor start time keeps the stored ones. */
  lemma PartialUpdateKeepsFields(store: Store, m: Monitor)
    requires m.id in store && m.reward == 0 && m.startedIn == ZeroTime
    ensures var w := Update(store, m, None);
      w.store[m.id] == store[m.id].(id := m.id, usageLimit := m.usageLimit, updatedAt := StoredTime(m.updatedAt))
  {
  }

  /** After an upsert the latest epoch has an id at least as large as the written one. */
  lemma UpdateThenLast(store: Store, m: Monitor)
    ensures var r := Get(Update(store, m, None).store, 0, true, None);
      r.Ok? && r.value.id >= m.id && (forall j :: j in store ==> j <= r.value.id)
  {
  }
}

=== FILE: monitor_service.dfy ===
/**
 The epoch monitor service: the in-memory current epoch plus its `updated`
 flag. `Use` and `DeUse` run under one mutex in the service, so each is one
 atomic state transition here; the background save `Use` starts on a
 rollover is returned as a pending write instead of being run.
 */
module MonitorService {
  import opened Domain
  import MonitorRepository

  /** The service state: the synced monitor (nil before `Sync`) and whether it has unsaved changes. */
  datatype Service = Service(monitor: Option<Monitor>, updated: bool)

  /** The result of `Use`, with the save of the exhausted epoch a rollover hands to a goroutine. */
  datatype UseOutcome = UseOutcome(service: Service, result: Result<int>, pending: Option<Monitor>)

  datatype SaveOutcome = SaveOutcome(service: Service, store: MonitorRepository.Store, err: Option<Error>)

  datatype SyncOutcome = SyncOutcome(service: Service, err: Option<Error>)

  const RewardsAreOver: Error := DomainError(NotFound, "Rewards are over!")

  const TooManyEpochs: Error := DomainError(InvalidArgument, "There can be no more than 5 epochs.")

  /**
   What `Use` needs so as not to dereference a nil pointer: a synced monitor,
   and a table entry for the next epoch whenever a rollover is due.
   */
  predicate CanUse(s: Service)
  {
    && s.monitor.Some?
    && (s.monitor.value.usageLimit == 0 && s.monitor.value.id != MaxMonitorEpoch ==> s.monitor.value.id + 1 in Epochs)
  }

  /** A synced monitor on a table epoch with a non-negative remaining limit. */
  predicate Valid(s: Service)
  {
    s.monitor.Some? && 1 <= s.monitor.value.id <= MaxMonitorEpoch && s.monitor.value.usageLimit >= 0
  }

  lemma ValidCanUse(s: Service)
    requires Valid(s)
    ensures CanUse(s)
  {
  }

  /**
   Hands out one reward. While the limit is not zero it is decremented and the
   current reward returned; at limit zero in the last epoch it fails with
   "Rewards are over!" and changes nothing; at limit zero in an earlier epoch
   the exhausted epoch is queued for saving and the next table epoch becomes
   current, already charged with this use.
   */
  function Use(s: Service, now: Time): (o: UseOutcome)
    requires CanUse(s)
    ensures var m := s.monitor.value;
      m.usageLimit != 0 ==>
        && o.service == Service(Some(m.(usageLimit := m.usageLimit - 1)), true)
        && o.result == Ok(m.reward)
        && o.pending == None
    ensures var m := s.monitor.value;
      m.usageLimit == 0 && m.id == MaxMonitorEpoch ==> o == UseOutcome(s, Err(RewardsAreOver), None)
    ensures var m := s.monitor.value;
      m.usageLimit == 0 && m.id != MaxMonitorEpoch ==>
        && o.service.updated
        && o.service.monitor.Some?
        && o.service.monitor.value.id == m.id + 1
        && o.service.monitor.value.reward == Epochs[m.id + 1].reward
        && o.service.monitor.value.usageLimit == Epochs[m.id + 1].usageLimit - 1
        && o.service.monitor.value.startedIn == now
        && o.service.monitor.value.updatedAt == now
        && o.result == Ok(Epochs[m.id + 1].reward)
        && o.pending == Some(Monitor(m.id, 0, 0, ZeroTime, now))
    ensures o.result.Ok? ==> o.service.monitor.Some? && o.result.value == o.service.monitor.value.reward
    ensures o.service.monitor.Some?
    ensures o.service.monitor.value.id == s.monitor.value.id || o.service.monitor.value.id == s.monitor.value.id + 1
    ensures Valid(s) ==> Valid(o.service)
  {
    var m := s.monitor.value;
    if m.usageLimit == 0 && m.id == MaxMonitorEpoch then
      UseOutcome(s, Err(RewardsAreOver), None)
    else
      var pending := if m.usageLimit == 0 then Some(Monitor(m.id, 0, m.usageLimit, ZeroTime, now)) else None;
      var current :=
        if m.usageLimit == 0 then
          var next := Epochs[m.id + 1];
          Monitor(next.id, next.reward, next.usageLimit, now, now)
        else m;
      var charged := current.(usageLimit := current.usageLimit - 1);
      UseOutcome(Service(Some(charged), true), Ok(charged.reward), pending)
  }

  /** Gives one use back to the current epoch; nothing else changes, not even `updated`. */
  function DeUse(s: Service): (t: Service)
    requires s.monitor.Some?
    ensures t.monitor.Some?
    ensures t.monitor.value.usageLimit == s.monitor.value.usageLimit + 1
    ensures t.monitor.value.id == s.monitor.value.id
    ensures t.monitor.value.reward == s.monitor.value.reward
    ensures t.monitor.value.startedIn == s.monitor.value.startedIn
    ensures t.monitor.value.updatedAt == s.monitor.value.updatedAt
    ensures t.updated == s.updated
  {
    var m := s.monitor.value;
    s.(monitor := Some(m.(usageLimit := m.usageLimit + 1)))
  }

  /** Within one epoch, `DeUse` undoes `Use` exactly, except that the state is now marked updated. */
  lemma UseThenDeUse(s: Service, now: Time)
    requires s.monitor.Some? && s.monitor.value.usageLimit != 0
    ensures DeUse(Use(s, now).service) == s.(updated := true)
  {
  }

  /**
   Persists the monitor. An explicit monitor is written as given and leaves
   the service alone; otherwise the current state is written only when it is
   marked updated or `skip` forces it, and `updated` is cleared only when the
   write succeeded.
   */
  function Save(s: Service, store: MonitorRepository.Store, skip: bool, explicit: Option<Monitor>,
                now: Time, fault: Option<Error>): (o: SaveOutcome)
    requires explicit.None? && (s.updated || skip) ==> s.monitor.Some?
    ensures explicit.Some? ==>
      && o.service == s
      && o.err == fault
      && (fault.Some? ==> o.store == store)
      && (fault.None? ==> o.store == MonitorRepository.Update(store, explicit.value, None).store)
      && (fault.None? ==> MonitorRepository.Get(o.store, explicit.value.id, false, None).Ok?)
    ensures explicit.None? && !s.updated && !skip ==> o == SaveOutcome(s, store, None)
    ensures explicit.None? && (s.updated || skip) && fault.Some? ==> o == SaveOutcome(s, store, fault)
    ensures explicit.None? && (s.updated || skip) && fault.None? ==>
      var m := s.monitor.value;
      && o.err.None?
      && o.service == s.(updated := false)
      && o.store.Keys == store.Keys + {m.id}
      && (forall j :: j in store && j != m.id ==> o.store[j] == store[j])
      && o.store[m.id].usageLimit == m.usageLimit
      && o.store == MonitorRepository.Update(store, m.(updatedAt := now), None).store
      && o.store[m.id].updatedAt == StoredTime(now)
      && o.store[m.id].reward == (if m.reward != 0 then m.reward else if m.id in store then store[m.id].reward else 0)
      && o.store[m.id].startedIn ==
         (if m.startedIn != ZeroTime then StoredTime(m.startedIn) else if m.id in store then store[m.id].startedIn else ZeroTime)
  {
    if explicit.Some? then
      MonitorRepository.UpdateThenGet(store, explicit.value);
      var w := MonitorRepository.Update(store, explicit.value, fault);
      SaveOutcome(s, w.store, w.err)
    else if s.updated || skip then
      var m := s.monitor.value;
      var w := MonitorRepository.Update(store, Monitor(m.id, m.reward, m.usageLimit, m.startedIn, now), fault);
      if w.err.Some? then SaveOutcome(s, w.store, w.err)
      else SaveOutcome(s.(updated := false), w.store, None)
    else
      SaveOutcome(s, store, None)
  }

  /**
   Running the save a rollover emits marks the stored exhausted epoch as used
   up and stamps it, keeping its stored reward and start time; the new
   current epoch and every other stored epoch are untouched.
   */
  lemma RolloverSaveKeepsEpochRecord(s: Service, store: MonitorRepository.Store, now: Time)
    requires Valid(s) && s.monitor.value.usageLimit == 0 && s.monitor.value.id < MaxMonitorEpoch
    requires s.monitor.value.id in store
    ensures var m := s.monitor.value;
      var o := Use(s, now);
      var w := Save(o.service, store, false, o.pending, now, None);
      && w.err.None?
      && w.service == o.service
      && w.store[m.id] == store[m.id].(id := m.id, usageLimit := 0, updatedAt := StoredTime(now))
      && (forall j :: j in store && j != m.id ==> w.store[j] == store[j])
  {
    var m := s.monitor.value;
    MonitorRepository.PartialUpdateKeepsFields(store, Monitor(m.id, 0, 0, ZeroTime, now));
  }

  /** Loads the epoch with the greatest id; on any error the service is unchanged. */
  function Sync(s: Service, store: MonitorRepository.Store, fault: Option<Error>): (o: SyncOutcome)
    ensures o.err.Some? ==> o.service == s
    ensures fault.Some? ==> o.err == fault
    ensures fault.None? && store == map[] ==> o.err == Some(MonitorRepository.EpochNotFound)
    ensures fault.None? && store != map[] ==>
      && o.err.None?
      && o.service.updated == s.updated
      && o.service.monitor.Some?
      && o.service.monitor.value.id in store
      && o.service.monitor.value == store[o.service.monitor.value.id].(id := o.service.monitor.value.id)
      && (forall j :: j in store ==> j <= o.service.monitor.value.id)
  {
    var r := MonitorRepository.Get(store, 0, true, fault);
    if r.Err? then SyncOutcome(s, Some(r.error))
    else SyncOutcome(s.(monitor := Some(r.value)), None)
  }

  /**
   Saving an updated monitor whose epoch is the latest one in the store and
   syncing again gives back the same monitor, stamped with the save time,
   its times cut to the milliseconds the store keeps.
   */
  lemma SaveThenSync(s: Service, store: MonitorRepository.Store, now: Time)
    requires s.monitor.Some? && s.updated
    requires s.monitor.value.reward != 0 && s.monitor.value.startedIn != ZeroTime
    requires forall j :: j in store ==> j <= s.monitor.value.id
    ensures var saved := Save(s, store, false, None, now, None);
      var synced := Sync(saved.service, saved.store, None);
      synced.err.None? &&
      synced.service == Service(Some(s.monitor.value.(startedIn := StoredTime(s.monitor.value.startedIn),
                                                      updatedAt := StoredTime(now))), false)
  {
    var m := s.monitor.value;
    var saved := Save(s, store, false, None, now, None);
    assert forall j :: j in saved.store ==> j <= m.id;
  }

  /**
   Reads an epoch through the repository, but first rejects every id below
   MaxMonitorEpoch with InvalidArgument, whether or not the current epoch is
   asked for.
   */
  function Get(store: MonitorRepository.Store, id: int, current: bool, fault: Option<Error>): (r: Result<Monitor>)
    ensures id < MaxMonitorEpoch ==> r == Err(TooManyEpochs)
    ensures id >= MaxMonitorEpoch ==> r == MonitorRepository.Get(store, id, current, fault)
    ensures id >= MaxMonitorEpoch && fault.Some? ==> r == Err(fault.value)
    ensures id >= MaxMonitorEpoch && fault.None? && !current ==>
      (r.Ok? <==> id in store) && (r.Ok? ==> r.value == MonitorRepository.Decode(store, id))
    ensures id >= MaxMonitorEpoch && fault.None? && current ==>
      && (r.Ok? <==> store != map[])
      && (r.Ok? ==> r.value.id in store && r.value == MonitorRepository.Decode(store, r.value.id))
      && (r.Ok? ==> forall j :: j in store ==> j <= r.value.id)
  {
    if id < MaxMonitorEpoch then Err(TooManyEpochs)
    else MonitorRepository.Get(store, id, current, fault)
  }

  /**
   As written, `Get` refuses epochs 1 to 4 of the table, and also the query
   for the current epoch made with id 0, although its message only speaks
   of ids above 5.
   */
  lemma GetRejectsEarlyEpochs(store: MonitorRepository.Store)
    ensures forall id :: id in Epochs && id < MaxMonitorEpoch ==> Get(store, id, false, None) == Err(TooManyEpochs)
    ensures Get(store, 0, true, None) == Err(TooManyEpochs)
    ensures 3 in store ==> MonitorRepository.Get(store, 3, false, None).Ok? && Get(store, 3, false, None).Err?
  {
  }

  /** `Get` with the guard its message describes: only ids above MaxMonitorEpoch are refused. */
  function GetIntended(store: MonitorRepository.Store, id: int, current: bool, fault: Option<Error>): (r: Result<Monitor>)
    ensures id > MaxMonitorEpoch ==> r == Err(TooManyEpochs)
    ensures id <= MaxMonitorEpoch ==> r == MonitorRepository.Get(store, id, current, fault)
    ensures id <= MaxMonitorEpoch && fault.Some? ==> r == Err(fault.value)
    ensures id <= MaxMonitorEpoch && fault.None? && !current ==>
      (r.Ok? <==> id in store) && (r.Ok? ==> r.value == MonitorRepository.Decode(store, id))
    ensures id <= MaxMonitorEpoch && fault.None? && current ==>
      && (r.Ok? <==> store != map[])
      && (r.Ok? ==> r.value.id in store && r.value == MonitorRepository.Decode(store, r.value.id))
      && (r.Ok? ==> forall j :: j in store ==> j <= r.value.id)
  {
    if id > MaxMonitorEpoch then Err(TooManyEpochs)
    else MonitorRepository.Get(store, id, current, fault)
  }

  /**
   The two guards agree only at MaxMonitorEpoch: below it `Get` refuses
   what the corrected guard passes to the repository, above it the other
   way round, so without a driver fault their answers differ for every
   other id.
   */
  lemma GetVersusIntended(store: MonitorRepository.Store, id: int, current: bool, fault: Option<Error>)
    ensures id < MaxMonitorEpoch ==>
      Get(store, id, current, fault) == Err(TooManyEpochs) &&
      GetIntended(store, id, current, fault) == MonitorRepository.Get(store, id, current, fault)
    ensures id > MaxMonitorEpoch ==>
      Get(store, id, current, fault) == MonitorRepository.Get(store, id, current, fault) &&
      GetIntended(store, id, current, fault) == Err(TooManyEpochs)
    ensures fault.None? ==> (Get(store, id, current, fault) == GetIntended(store, id, current, fault) <==> id == MaxMonitorEpoch)
  {
  }

  /** The corrected guard serves every stored table epoch and the current-epoch query. */
  lemma GetIntendedServesTable(store: MonitorRepository.Store)
    ensures forall id :: id in Epochs && id in store ==> GetIntended(store, id, false, None) == Ok(MonitorRepository.Decode(store, id))
    ensures store != map[] ==> GetIntended(store, 0, true, None).Ok?
  {
  }

  // ---------------------------------------------------------------------
  // Sequences of uses and the reward ledger
  // ---------------------------------------------------------------------

  /** Uses still payable from the current state: what is left of this epoch plus every later table epoch. */
  function Remaining(s: Service): (left: int)
    requires s.monitor.Some?
  {
    s.monitor.value.usageLimit + QuotaAbove(s.monitor.value.id)
  }

  /** One use succeeds exactly when something remains, and then consumes exactly one unit. */
  lemma UseLedger(s: Service, now: Time)
    requires Valid(s)
    ensures var o := Use(s, now);
      && (o.result.Ok? <==> Remaining(s) > 0)
      && (o.result.Ok? ==> Remaining(o.service) == Remaining(s) - 1)
      && (o.result.Err? ==> o.service == s && o.result == Err(RewardsAreOver))
  {
  }

  /** `n` uses in a row from `s`, with each use's result in order. */
  function Run(s: Service, n: nat, now: Time): (r: (Service, seq<Result<int>>))
    requires Valid(s)
    ensures Valid(r.0)
    ensures |r.1| == n
    decreases n
  {
    if n == 0 then (s, [])
    else
      var before := Run(s, n - 1, now);
      var o := Use(before.0, now);
      (o.service, before.1 + [o.result])
  }

  /** The number of successful uses in a sequence of results. */
  function Successes(rs: seq<Result<int>>): (count: nat)
  {
    if |rs| == 0 then 0
    else Successes(rs[..|rs| - 1]) + (if rs[|rs| - 1].Ok? then 1 else 0)
  }

  /**
   Over any run, the number of rewards handed out is the smaller of the
   number of uses and what remained, and the ledger is charged exactly that
   many units.
   */
  lemma {:induction false} RunLedger(s: Service, n: nat, now: Time)
    requires Valid(s)
    ensures Successes(Run(s, n, now).1) == (if n <= Remaining(s) then n else Remaining(s))
    ensures Remaining(Run(s, n, now).0) == Remaining(s) - Successes(Run(s, n, now).1)
  {
    RunRemaining(s, n, now);
    RunSuccesses(s, n, now);
  }

  /** After `n` uses what remains is the original amount less `n`, but never below zero. */
  lemma {:induction false} RunRemaining(s: Service, n: nat, now: Time)
    requires Valid(s)
    ensures Remaining(Run(s, n, now).0) == (if n <= Remaining(s) then Remaining(s) - n else 0)
    decreases n
  {
    if n > 0 {
      RunRemaining(s, n - 1, now);
      var before := Run(s, n - 1, now);
      ValidCanUse(before.0);
      assert Run(s, n, now).0 == Use(before.0, now).service;
      UseLedger(before.0, now);
    }
  }

  /** Every success in a run is paid for by exactly one unit of what remained. */
  lemma {:induction false} RunSuccesses(s: Service, n: nat, now: Time)
    requires Valid(s)
    ensures Successes(Run(s, n, now).1) == Remaining(s) - Remaining(Run(s, n, now).0)
    decreases n
  {
    if n > 0 {
      RunSuccesses(s, n - 1, now);
      var before := Run(s, n - 1, now);
      ValidCanUse(before.0);
      var o := Use(before.0, now);
      assert Run(s, n, now) == (o.service, before.1 + [o.result]);
      UseLedger(before.0, now);
      SuccessesSnoc(before.1, o.result);
    }
  }

  lemma SuccessesSnoc(rs: seq<Result<int>>, r: Result<int>)
    ensures Successes(rs + [r]) == Successes(rs) + (if r.Ok? then 1 else 0)
  {
    assert (rs + [r])[..|rs|] == rs;
  }

  /** From the first table epoch, freshly activated, exactly 25000 rewards can be handed out. */
  lemma FreshMonitorPays25000(n: nat, now: Time)
    ensures var s := Service(Some(Epochs[1]), false);
      Valid(s) && Successes(Run(s, n, now).1) == (if n <= 25000 then n else 25000)
  {
    var s := Service(Some(Epochs[1]), false);
    TotalQuota();
    RunLedger(s, n, now);
  }

  /**
   In any epoch with limit L, each of the first k <= L uses pays the epoch's
   reward, and the epoch is left at limit L - k.
   */
  lemma {:induction false} DrainTier(s: Service, k: nat, now: Time)
    requires Valid(s) && k <= s.monitor.value.usageLimit
    ensures var r := Run(s, k, now);
      && r.0.monitor == Some(s.monitor.value.(usageLimit := s.monitor.value.usageLimit - k))
      && (forall i :: 0 <= i < k ==> r.1[i] == Ok(s.monitor.value.reward))
    decreases k
  {
    if k > 0 {
      DrainTier(s, k - 1, now);
    }
  }

  /** The use after an epoch's last unit is paid from the next epoch, at that epoch's reward. */
  lemma RolloverAfterLimit(s: Service, now: Time)
    requires Valid(s) && s.monitor.value.id < MaxMonitorEpoch
    ensures var m := s.monitor.value;
      var r := Run(s, m.usageLimit + 1, now);
      && (forall i :: 0 <= i < m.usageLimit ==> r.1[i] == Ok(m.reward))
      && r.1[m.usageLimit] == Ok(Epochs[m.id + 1].reward)
      && r.0.monitor.value.id == m.id + 1
      && r.0.monitor.value.usageLimit == Epochs[m.id + 1].usageLimit - 1
  {
    var m := s.monitor.value;
    DrainTier(s, m.usageLimit, now);
    var before := Run(s, m.usageLimit, now);
    assert (before.1 + [Use(before.0, now).result])[..m.usageLimit] == before.1;
  }

  /** Epoch 1 with two uses left: three uses pay 1000, 1000 and then 900 from epoch 2. */
  lemma TwoLeftThenRollover(now: Time)
    ensures var s := Service(Some(Epochs[1].(usageLimit := 2)), false);
      var r := Run(s, 3, now);
      r.1 == [Ok(1000), Ok(1000), Ok(900)] && r.0.monitor.value.id == 2 && r.0.monitor.value.usageLimit == 1999
  {
    var s := Service(Some(Epochs[1].(usageLimit := 2)), false);
    RolloverAfterLimit(s, now);
    assert Run(s, 3, now).1[..2] == Run(s, 2, now).1;
  }

  /** Once the last epoch is exhausted every further use fails and nothing changes. */
  lemma {:induction false} ExhaustedStaysExhausted(s: Service, n: nat, now: Time)
    requires Valid(s) && s.monitor.value.id == MaxMonitorEpoch && s.monitor.value.usageLimit == 0
    ensures var r := Run(s, n, now);
      r.0 == s && forall i :: 0 <= i < n ==> r.1[i] == Err(RewardsAreOver)
    decreases n
  {
    if n > 0 {
      ExhaustedStaysExhausted(s, n - 1, now);
    }
  }
}

=== FILE: promo_service.dfy ===
/**
 The promo service: validates a new promo code before handing it to the
 user repository, and redeems codes with the configured award. The pattern
 a promo code must match is not part of this model; it is the parameter
 `rxPromo`.
 */
module PromoService {
  import opened Domain
  import UserRepository

  /** The promo section of the configuration. */
  datatype PromoConfig = PromoConfig(award: int)

  const InvalidPromo: Error := DomainError(InvalidArgument, "The promo code is invalid.")

  /**
   Sets user `d`'s promo code. A code `rxPromo` rejects fails with
   InvalidArgument before the repository is consulted, so neither the
   collection nor a driver fault plays any part; a valid code goes to
   `UpdatePromo` and its error comes back unchanged.
   */
  function Update(store: UserRepository.Store, rxPromo: string -> bool, d: string, code: string,
                  fault: Option<Error>): (o: UserRepository.Outcome)
    ensures !rxPromo(code) ==> o == UserRepository.Outcome(store, Some(InvalidPromo))
    ensures rxPromo(code) ==> o == UserRepository.UpdatePromo(store, d, code, fault)
    ensures o.err.Some? ==> o.store == store
    ensures o.err.None? ==> rxPromo(code) && d in store && store[d].promo.None? && o.store[d].promo == Some(code)
  {
    if !rxPromo(code) then UserRepository.Outcome(store, Some(InvalidPromo))
    else UserRepository.UpdatePromo(store, d, code, fault)
  }

  /** Redeems `code` for user `d`, always with the configured award, returning the repository's error unchanged. */
  ghost function Use(store: UserRepository.Store, cfg: PromoConfig, d: string, code: string,
                     fault: Option<Error>): (o: UserRepository.Outcome)
    ensures o == UserRepository.UsePromo(store, d, code, cfg.award, fault)
    ensures o.err.None? ==> UserRepository.TotalBalance(o.store) == UserRepository.TotalBalance(store) + 2 * cfg.award
  {
    UserRepository.UsePromoTotalBalance(store, d, code, cfg.award, fault);
    UserRepository.UsePromo(store, d, code, cfg.award, fault)
  }
}

=== FILE: redemption.dfy ===
/**
 ASSUMED COMPOSITION. The code that chains the monitor and the user
 repository for one redemption is not part of this model; the `use`
 command only shows that a service returns the reward of a redemption.
 This module assumes the chain: reserve a reward with `Use`, redeem with
 `UsePromo` at that reward, give the reward back with `DeUse` when the
 redemption fails. It builds the chain only from the verified pieces
 above, to show what they guarantee together.
 */
module Redemption {
  import opened Domain
  import MonitorService
  import UserRepository

  datatype RedeemOutcome = RedeemOutcome(
    service: MonitorService.Service,
    store: UserRepository.Store,
    result: Result<int>,
    pending: Option<Monitor>)

  /** Reserve, redeem, and compensate the reservation if the redemption fails. */
  ghost function Redeem(s: MonitorService.Service, store: UserRepository.Store, d: string, code: string,
                        now: Time, fault: Option<Error>): (o: RedeemOutcome)
    requires MonitorService.CanUse(s)
    ensures o.result.Err? ==> o.store == store
    ensures MonitorService.Use(s, now).result.Err? ==>
      o == RedeemOutcome(s, store, Err(MonitorService.RewardsAreOver), None)
    ensures o.result.Ok? ==>
      && o.result == MonitorService.Use(s, now).result
      && UserRepository.TotalBalance(o.store) == UserRepository.TotalBalance(store) + 2 * o.result.value
      && o.service == MonitorService.Use(s, now).service
    ensures MonitorService.Use(s, now).result.Ok? && o.result.Err? ==>
      && o.service.monitor.Some?
      && o.service.monitor.value.usageLimit == MonitorService.Use(s, now).service.monitor.value.usageLimit + 1
      && o.service.monitor.value.id == MonitorService.Use(s, now).service.monitor.value.id
    ensures MonitorService.Use(s, now).result.Ok? ==>
      var w := UserRepository.UsePromo(store, d, code, MonitorService.Use(s, now).result.value, fault);
      && (o.result.Ok? <==> w.err.None?)
      && (w.err.Some? ==> o.result == Err(w.err.value))
      && (w.err.None? ==> o.store == w.store)
    ensures o.pending == MonitorService.Use(s, now).pending
  {
    var u := MonitorService.Use(s, now);
    if u.result.Err? then RedeemOutcome(u.service, store, u.result, u.pending)
    else
      var w := UserRepository.UsePromo(store, d, code, u.result.value, fault);
      UserRepository.UsePromoTotalBalance(store, d, code, u.result.value, fault);
      if w.err.Some? then RedeemOutcome(MonitorService.DeUse(u.service), store, Err(w.err.value), u.pending)
      else RedeemOutcome(u.service, w.store, u.result, u.pending)
  }

  /** Within one epoch a failed redemption leaves the monitor as it was, up to the `updated` flag. */
  lemma FailedRedeemRestoresQuota(s: MonitorService.Service, store: UserRepository.Store, d: string,
                                  code: string, now: Time, fault: Option<Error>)
    requires s.monitor.Some? && s.monitor.value.usageLimit != 0
    ensures var o := Redeem(s, store, d, code, now, fault);
      o.result.Err? ==> o.service == s.(updated := true) && o.store == store
  {
    MonitorService.UseThenDeUse(s, now);
  }

  /**
   When the reservation rolled the monitor over, the compensation goes to
   the new epoch: the exhausted epoch stays at zero and the new one is back
   at its full table limit.
   */
  lemma FailedRedeemAfterRollover(s: MonitorService.Service, store: UserRepository.Store, d: string,
                                  code: string, now: Time, fault: Option<Error>)
    requires MonitorService.Valid(s)
    requires s.monitor.value.usageLimit == 0 && s.monitor.value.id < MaxMonitorEpoch
    ensures var o := Redeem(s, store, d, code, now, fault);
      o.result.Err? ==>
        && o.service.monitor.value.id == s.monitor.value.id + 1
        && o.service.monitor.value.usageLimit == Epochs[s.monitor.value.id + 1].usageLimit
        && o.pending == Some(Monitor(s.monitor.value.id, 0, 0, ZeroTime, now))
  {
  }
}

=== FILE: user_commands.dfy ===
/**
 The decisions of two user commands, without the Discord I/O around them:
 the DM and review-role gate of `update-balance`, and the author selection
 and account-age gate of `register`. The reply texts are the ones the
 handlers send.
 */
module UserCommands {
  import opened Domain
  import BotErrors

  datatype DiscordUser = DiscordUser(id: string)

  datatype Member = Member(user: DiscordUser, roles: seq<string>)

  /** An interaction: `user` is set in a DM, `member` in a guild. */
  datatype Interaction = Interaction(user: Option<DiscordUser>, member: Option<Member>)

  /** Discord sets at least one of the two; otherwise the handlers dereference nil. */
  predicate WellFormed(i: Interaction)
  {
    i.user.Some? || i.member.Some?
  }

  /** Whether `target` is among `roles`, scanning from the front. */
  function HasRole(roles: seq<string>, target: string): (r: bool)
    ensures r <==> exists k :: 0 <= k < |roles| && roles[k] == target
  {
    if |roles| == 0 then false
    else if roles[0] == target then true
    else
      var r := HasRole(roles[1..], target);
      assert forall k :: 0 < k < |roles| ==> roles[k] == roles[1..][k - 1];
      r
  }

  /** A call to the balance service: add `delta` (possibly negative) to user `user`'s balance. */
  datatype BalanceUpdate = BalanceUpdate(user: string, delta: int)

  /** A reply: a fixed text, or the "You have updated the balance of user ..." confirmation. */
  datatype Reply = Text(text: string) | BalanceUpdated(user: string, amount: int)

  datatype UpdateBalanceOutcome = UpdateBalanceOutcome(call: Option<BalanceUpdate>, reply: Reply)

  const DmRejected: string := "This command cannot be used in dm!"
  const NoAccess: string := "You do not have access to this command!"

  /**
   The `update-balance` handler: a DM is refused before roles are looked at,
   a member without the review role is refused, and otherwise the balance
   update is issued and the confirmation sent, whatever `updateErr` the
   update returned.
   */
  function UpdateBalance(i: Interaction, reviewRole: string, target: string, amount: int,
                         updateErr: Option<Error>): (o: UpdateBalanceOutcome)
    requires WellFormed(i)
    ensures i.user.Some? ==> o == UpdateBalanceOutcome(None, Text(DmRejected))
    ensures i.user.None? && !(reviewRole in i.member.value.roles) ==> o == UpdateBalanceOutcome(None, Text(NoAccess))
    ensures o.call.Some? <==> i.user.None? && reviewRole in i.member.value.roles
    ensures o.call.Some? ==> o.call.value == BalanceUpdate(target, amount) && o.reply == BalanceUpdated(target, amount)
  {
    if i.user.Some? then UpdateBalanceOutcome(None, Text(DmRejected))
    else if !HasRole(i.member.value.roles, reviewRole) then UpdateBalanceOutcome(None, Text(NoAccess))
    else UpdateBalanceOutcome(Some(BalanceUpdate(target, amount)), BalanceUpdated(target, amount))
  }

  /** A reviewer can take balance away, and the reply does not depend on whether the update failed. */
  lemma ReviewerDebitsRegardlessOfError(target: string, amount: int, role: string, author: DiscordUser,
                                        e: Error)
    requires amount < 0
    ensures var i := Interaction(None, Some(Member(author, [role])));
      && UpdateBalance(i, role, target, amount, Some(e)) == UpdateBalance(i, role, target, amount, None)
      && UpdateBalance(i, role, target, amount, Some(e)).call == Some(BalanceUpdate(target, amount))
  {
  }

  /** The user who invoked the command: the DM user, else the guild member's user. */
  function Author(i: Interaction): (u: DiscordUser)
    requires WellFormed(i)
    ensures i.user.Some? ==> u == i.user.value
    ensures i.user.None? ==> u == i.member.value.user
  {
    if i.user.None? then i.member.value.user else i.user.value
  }

  const AccountTooNew: string := "Your account is well new!"
  const Registered: string := "You have successfully registered!"

  const NanosPerSecond: int := 1_000_000_000

  /** Go's `Time.Unix()`: whole seconds, rounded down. */
  function UnixSeconds(nanos: int): (seconds: int)
  {
    nanos / NanosPerSecond
  }

  /**
   The account-age check: too new when creation time plus the minimum age
   is a later second than now, so only whole seconds are compared.
   */
  function TooNew(createdAt: int, minAge: int, now: int): (tooNew: bool)
    ensures tooNew <==> createdAt + minAge >= (UnixSeconds(now) + 1) * NanosPerSecond
    ensures createdAt + minAge <= now ==> !tooNew
    ensures createdAt + minAge >= now + NanosPerSecond ==> tooNew
  {
    var a := createdAt + minAge;
    assert a == UnixSeconds(a) * NanosPerSecond + a % NanosPerSecond;
    assert now == UnixSeconds(now) * NanosPerSecond + now % NanosPerSecond;
    UnixSeconds(a) > UnixSeconds(now)
  }

  /** Only whole seconds are compared: reaching the minimum age later within the current second is accepted. */
  lemma SameSecondIsAccepted()
    ensures !TooNew(0, 1_500_000_000, 1_000_000_000)
  {
  }

  /** What `register` did: the Discord id it called `Create` with (whether or not that failed), and the reply it sent. */
  datatype RegisterOutcome = RegisterOutcome(createCalledFor: Option<string>, reply: Option<string>)

  /**
   The `register` handler. `snowflake` decodes a Discord id into its
   creation time in nanoseconds (`None` when the id cannot be decoded);
   `createErr` is what creating the user returned.
   */
  function Register(i: Interaction, snowflake: string -> Option<int>, minAge: int, now: int,
                    createErr: Option<Error>): (o: RegisterOutcome)
    requires WellFormed(i)
    ensures snowflake(Author(i).id).None? ==> o == RegisterOutcome(None, None)
    ensures o.createCalledFor.Some? <==> snowflake(Author(i).id).Some? && !TooNew(snowflake(Author(i).id).value, minAge, now)
    ensures snowflake(Author(i).id).Some? && TooNew(snowflake(Author(i).id).value, minAge, now) ==>
      o == RegisterOutcome(None, Some(AccountTooNew))
    ensures o.createCalledFor.Some? ==> o.createCalledFor.value == Author(i).id
    ensures o.createCalledFor.Some? && createErr.Some? ==> o.reply == Some(BotErrors.ResponseMessage(createErr.value))
    ensures o.createCalledFor.Some? && createErr.None? ==> o.reply == Some(Registered)
  {
    var author := Author(i);
    match snowflake(author.id)
    case None => RegisterOutcome(None, None)
    case Some(createdAt) =>
      if TooNew(createdAt, minAge, now) then RegisterOutcome(None, Some(AccountTooNew))
      else if createErr.Some? then RegisterOutcome(Some(author.id), Some(BotErrors.ResponseMessage(createErr.value)))
      else RegisterOutcome(Some(author.id), Some(Registered))
  }
}

=== FILE: user_repository.dfy ===
/**
 The `user` collection, keyed by Discord id. Each operation is an
 all-or-nothing transition: it either returns the new collection and no
 error, or an error and the collection it was given. Driver failures
 (session start, transaction commit, network) are the explicit `fault`
 parameter. Uniqueness of Discord ids and of promo codes rests on unique
 indexes of the database; here the map keys give the first and
 `UniquePromos` states the second.
 */
module UserRepository {
  import opened Domain

  /** A user document: own promo code, the code redeemed, and the balance. Absent fields are `None`. */
  datatype User = User(promo: Option<string>, used: Option<string>, balance: int)

  /** The collection, keyed by `discordId`. */
  type Store = map<string, User>

  datatype Outcome = Outcome(store: Store, err: Option<Error>)

  const UserAlreadyExists: Error := DomainError(AlreadyExists, "User already exists.")
  const PromoAlreadyExists: Error := DomainError(AlreadyExists, "The promo already exists.")
  const NoUserForPromo: Error := DomainError(NotFound, "User does not exist or has already created a promo code.")
  const PromoNotFound: Error := DomainError(NotFound, "Promo code not found.")
  const OwnPromo: Error := DomainError(InvalidArgument, "You can't use your own promo code.")
  const UserNotFound: Error := DomainError(NotFound, "User not found.")

  /** User `d` owns promo code `code`. */
  predicate Owns(store: Store, d: string, code: string)
  {
    d in store && store[d].promo == Some(code)
  }

  /** Some user owns `code`. */
  predicate PromoTaken(store: Store, code: string)
  {
    exists d | d in store :: store[d].promo == Some(code)
  }

  /** No two users own the same promo code (the unique index on `promo`). */
  ghost predicate UniquePromos(store: Store)
  {
    forall a, b :: a in store && b in store && a != b && store[a].promo.Some? ==> store[a].promo != store[b].promo
  }

  /** Inserts a new user; a taken Discord id or promo code is a duplicate-key error. */
  function CreateUser(store: Store, d: string, user: User, fault: Option<Error>): (o: Outcome)
    ensures o.err.Some? ==> o.store == store
    ensures fault.Some? ==> o.err == fault
    ensures fault.None? ==>
      (o.err.None? <==> d !in store && !(user.promo.Some? && PromoTaken(store, user.promo.value)))
    ensures fault.None? && o.err.Some? ==> o.err == Some(UserAlreadyExists)
    ensures o.err.None? ==> o.store.Keys == store.Keys + {d} && o.store[d] == user && d !in store
    ensures o.err.None? ==> forall k :: k in store ==> o.store[k] == store[k]
  {
    if fault.Some? then Outcome(store, fault)
    else if d in store || (user.promo.Some? && PromoTaken(store, user.promo.value)) then Outcome(store, Some(UserAlreadyExists))
    else Outcome(store[d := user], None)
  }

  /**
   Sets user `d`'s own promo code, only if the user exists and has none yet;
   a code another user owns is a duplicate-key error.
   */
  function UpdatePromo(store: Store, d: string, code: string, fault: Option<Error>): (o: Outcome)
    ensures o.err.Some? ==> o.store == store
    ensures fault.Some? ==> o.err == fault
    ensures fault.None? && (d !in store || store[d].promo.Some?) ==> o.err == Some(NoUserForPromo)
    ensures fault.None? && d in store && store[d].promo.None? && PromoTaken(store, code) ==> o.err == Some(PromoAlreadyExists)
    ensures o.err.None? <==> fault.None? && d in store && store[d].promo.None? && !PromoTaken(store, code)
    ensures o.err.None? ==> o.store == store[d := store[d].(promo := Some(code))]
  {
    if fault.Some? then Outcome(store, fault)
    else if d !in store || store[d].promo.Some? then Outcome(store, Some(NoUserForPromo))
    else if PromoTaken(store, code) then Outcome(store, Some(PromoAlreadyExists))
    else Outcome(store[d := store[d].(promo := Some(code))], None)
  }

  /** A user that `FindOne({promo: code})` may return: some owner of `code`, if any. */
  ghost function FindOwner(store: Store, code: string): (r: Option<string>)
    ensures r.Some? ==> Owns(store, r.value, code)
    ensures r.None? <==> !PromoTaken(store, code)
  {
    if PromoTaken(store, code) then
      var d :| d in store && store[d].promo == Some(code); Some(d)
    else None
  }

  /** With unique promo codes the owner found is the one and only owner. */
  lemma FindOwnerUnique(store: Store, code: string, d: string)
    requires UniquePromos(store) && Owns(store, d, code)
    ensures FindOwner(store, code) == Some(d)
  {
  }

  /**
   Redeems `code` for user `d` inside one transaction: the owner must exist
   and differ from `d`, and `d` must exist and not have redeemed before.
   Then `d` records the code and both users receive `award`. Any error
   rolls the whole transaction back.
   */
  ghost function UsePromo(store: Store, d: string, code: string, award: int, fault: Option<Error>): (o: Outcome)
    ensures o.err.Some? ==> o.store == store
    ensures fault.Some? ==> o.err == fault
    ensures fault.None? && !PromoTaken(store, code) ==> o.err == Some(PromoNotFound)
    ensures fault.None? && PromoTaken(store, code) && FindOwner(store, code) == Some(d) ==> o.err == Some(OwnPromo)
    ensures fault.None? && PromoTaken(store, code) && FindOwner(store, code) != Some(d) && (d !in store || store[d].used.Some?) ==>
      o.err == Some(UserNotFound)
    ensures o.err.None? <==>
      fault.None? && PromoTaken(store, code) && FindOwner(store, code) != Some(d) && d in store && store[d].used.None?
    ensures o.err.None? ==>
      var owner := FindOwner(store, code).value;
      && owner != d
      && o.store.Keys == store.Keys
      && o.store[d] == store[d].(used := Some(code), balance := store[d].balance + award)
      && o.store[owner] == store[owner].(balance := store[owner].balance + award)
      && (forall k :: k in store && k != d && k != owner ==> o.store[k] == store[k])
  {
    if fault.Some? then Outcome(store, fault)
    else
      match FindOwner(store, code)
      case None => Outcome(store, Some(PromoNotFound))
      case Some(owner) =>
        if owner == d then Outcome(store, Some(OwnPromo))
        else if d !in store || store[d].used.Some? then Outcome(store, Some(UserNotFound))
        else
          var redeemed := store[d := store[d].(used := Some(code), balance := store[d].balance + award)];
          Outcome(redeemed[owner := redeemed[owner].(balance := redeemed[owner].balance + award)], None)
  }

  // ---------------------------------------------------------------------
  // Invariants over the whole collection
  // ---------------------------------------------------------------------

  /** The sum of all balances. */
  ghost function TotalBalance(store: Store): (total: int)
    decreases |store|
  {
    if store == map[] then 0
    else
      var d := AnyKey(store);
      store[d].balance + TotalBalance(store - {d})
  }

  /** The total can be split at any user, not only the one the definition picks. */
  lemma {:induction false} TotalBalanceSplit(store: Store, d: string)
    requires d in store
    ensures TotalBalance(store) == store[d].balance + TotalBalance(store - {d})
    decreases |store|
  {
    var p := AnyKey(store);
    if p != d {
      TotalBalanceSplit(store - {p}, d);
      TotalBalanceSplit(store - {d}, p);
      assert (store - {p}) - {d} == (store - {d}) - {p};
    }
  }

  /** Replacing one user's document changes the total by the change in that user's balance. */
  lemma TotalBalanceUpdate(store: Store, d: string, u: User)
    requires d in store
    ensures TotalBalance(store[d := u]) == TotalBalance(store) - store[d].balance + u.balance
  {
    TotalBalanceSplit(store, d);
    TotalBalanceSplit(store[d := u], d);
    assert store[d := u] - {d} == store - {d};
  }

  /** A successful redemption adds exactly twice the award to the sum of all balances. */
  lemma UsePromoTotalBalance(store: Store, d: string, code: string, award: int, fault: Option<Error>)
    ensures var o := UsePromo(store, d, code, award, fault);
      o.err.None? ==> TotalBalance(o.store) == TotalBalance(store) + 2 * award
  {
    var o := UsePromo(store, d, code, award, fault);
    if o.err.None? {
      var owner := FindOwner(store, code).value;
      var redeemed := store[d := store[d].(used := Some(code), balance := store[d].balance + award)];
      TotalBalanceUpdate(store, d, redeemed[d]);
      TotalBalanceUpdate(redeemed, owner, redeemed[owner].(balance := redeemed[owner].balance + award));
    }
  }

  /** After a successful redemption the same user can never redeem again, whatever the code. */
  lemma RedeemAtMostOnce(store: Store, d: string, code: string, award: int,
                         code2: string, award2: int, fault2: Option<Error>)
    ensures var o := UsePromo(store, d, code, award, None);
      o.err.None? ==> UsePromo(o.store, d, code2, award2, fault2).err.Some?
  {
  }

  /** Once set, a user's redeemed code never changes and the user is never removed. */
  lemma UsePromoKeepsUsed(store: Store, d: string, code: string, award: int, fault: Option<Error>)
    ensures var o := UsePromo(store, d, code, award, fault);
      forall k :: k in store && store[k].used.Some? ==> k in o.store && o.store[k].used == store[k].used
  {
  }

  /** Once set, a user's own promo code never changes, whatever `UpdatePromo` is asked. */
  lemma UpdatePromoKeepsPromo(store: Store, d: string, code: string, fault: Option<Error>)
    ensures var o := UpdatePromo(store, d, code, fault);
      forall k :: k in store && store[k].promo.Some? ==> k in o.store && o.store[k].promo == store[k].promo
  {
  }

  /** Inserting a user never produces two owners of one promo code. */
  lemma CreateUserKeepsPromosUnique(store: Store, d: string, user: User, fault: Option<Error>)
    requires UniquePromos(store)
    ensures UniquePromos(CreateUser(store, d, user, fault).store)
  {
    var c := CreateUser(store, d, user, fault);
    if c.err.None? {
      forall a, b | a in c.store && b in c.store && a != b && c.store[a].promo.Some?
        ensures c.store[a].promo != c.store[b].promo
      {
        if a == d {
          assert !PromoTaken(store, user.promo.value);
          assert b in store;
        } else if b == d {
          assert c.store[a] == store[a];
        }
      }
    }
  }

  /** Setting a user's promo code never produces two owners of one code. */
  lemma UpdatePromoKeepsPromosUnique(store: Store, d: string, code: string, fault: Option<Error>)
    requires UniquePromos(store)
    ensures UniquePromos(UpdatePromo(store, d, code, fault).store)
  {
    var u := UpdatePromo(store, d, code, fault);
    if u.err.None? {
      forall a, b | a in u.store && b in u.store && a != b && u.store[a].promo.Some?
        ensures u.store[a].promo != u.store[b].promo
      {
        if a == d {
          assert !PromoTaken(store, code);
          assert b in store;
        }
      }
    }
  }

  /** Redeeming a code leaves every user's own promo code as it was. */
  lemma UsePromoKeepsPromosUnique(store: Store, d: string, code: string, award: int, fault: Option<Error>)
    requires UniquePromos(store)
    ensures UniquePromos(UsePromo(store, d, code, award, fault).store)
  {
  }
}
